=== FILE: README.md ===
# User management: a Dafny model

This project models the three pieces of the user-management application that carry logic:

- **The REST service** (`backend/server.js`). It serves one `users` table: `id SERIAL PRIMARY KEY`, `name`, `phone`, and `email UNIQUE NOT NULL`. `Users.UsersTable` is that table. It holds a map from id to row and the next value of the id sequence, and `Valid()` says two things: every id was handed out by the sequence, and no two rows share an email. Each SQL statement the handlers issue is one method of the table. The five `/api/users` route handlers are methods that take the table explicitly and return the status code and JSON body they send. Their contracts give every branch the handler code takes on its own: the required-field check before any query, 404 when no row comes back, 400 for `23505` (in the create handler only), and 500 for everything else.
- **The browser logger** (`frontend/src/utils/logger.js`). `Logging.Logger` has these parts:
  - the level table fixed by its constructor;
  - the `shouldLog` rank filter;
  - the entry formatter;
  - the log kept in the localStorage item `usermanagement_logs`, modelled as an optional string.

  `writeToFile` keeps the last 1000 newline-separated pieces. `Lines` models `split('\n')` and `join('\n')` and proves the facts the trimming relies on.
- **The React form** (`frontend/src/App.js`). `Client.App` holds the component's state hooks. Each async handler is split at its `await` into two methods. The first returns the request it sends. The second, `...Response`, takes how that request settled. The confirmation dialog's answer is an input.

Inputs that stand for the outside world:
- `fault` means the database failed, before the statement took effect, for a reason the table's rules do not explain. Examples are a connection lost before the commit, a value longer than its VARCHAR column, an `:id` that is not an integer or lies outside the 32-bit range of `SERIAL`, and an exhausted id sequence. Postgres reports these with various codes (22001, 22P02, 22003, 2200H), and a lost connection carries a Node error code instead. The model stands for all of them with the one code `XX000`, which is never `23505`. A fault during an insert may or may not use up an id.
- `timestamp` is what the clock produced.
- `data` is what `JSON.stringify` produced, or `None` when the data was falsy.
- An `Outcome` or `FetchOutcome` is how an axios call settled.

Some behaviour of the code is easy to miss:
- A `PUT` whose email belongs to another row gets 500 `Server error`, not a duplicate-email 400. The update handler's catch has no `23505` branch.
- A duplicate-email `INSERT` still uses up one id. Postgres draws the `SERIAL` default before it checks the unique constraint and does not roll a sequence back.
- An `UPDATE` or `DELETE` on an id that is not in the table affects no row. So an update on a missing id gets 404 even when its email collides with another row.
- The logger's trimming counts lines, not entries. Pretty-printed JSON data makes one entry span several pieces (`Logging.EntryNewlines`), so the kept log can begin in the middle of an entry.

## Model

| member | source | states |
|---|---|---|
| `Users.UsersTable.Valid` | backend/server.js:112-115 | the table invariant: the sequence's next value is at least 1, every id lies in [1, nextId) and so was drawn from the sequence, and no two rows share an email |
| `Users.UsersTable.constructor` | backend/server.js:110-117 | a freshly created table is empty, its sequence starts at 1, and it satisfies the id and unique-email invariant |
| `Users.Listing` | backend/server.js:133 | the rows are listed in strictly ascending id order, and all ids are below the sequence's next value |
| `Users.ListingComplete` | backend/server.js:133 | a user appears in `Listing(rows, n)` exactly when it is a stored row with id in [0, n); with `n == nextId` under `Users.UsersTable.Valid`, that is exactly when it is a stored row |
| `Users.ListingLength` | backend/server.js:133-134 | the listing has one entry per stored id |
| `Users.MissingRequired` | backend/server.js:169 | a body passes the required-field check exactly when all three fields are present and non-empty; an empty string is rejected like an absent field |
| `Users.UsersTable.SelectAll` | backend/server.js:133 | `SELECT * ... ORDER BY id` gives the ordered listing, or fails with a non-unique-violation code |
| `Users.UsersTable.SelectById` | backend/server.js:148 | the lookup gives the one row with that id, or no rows when the id is absent |
| `Users.UsersTable.Insert` | backend/server.js:174-177 | on success the new row takes the fresh sequence value and the other rows are unchanged; a taken email fails with `23505`, leaves the rows unchanged and still uses up one id; a fault leaves the rows unchanged and may use up ids; the invariant is kept |
| `Users.UsersTable.Update` | backend/server.js:204-207 | a missing id affects no row; an email held by another row fails with `23505`; otherwise only that row's three fields are replaced and the id is kept; the invariant is kept |
| `Users.UsersTable.Delete` | backend/server.js:228 | a missing id affects no row; otherwise exactly that row is removed and returned |
| `Users.GetAllUsers` | backend/server.js:130-140 | the response is 200 with every stored row, each once, in ascending id order, and the count equals the table size; a store failure gives 500 `Server error` |
| `Users.GetUserById` | backend/server.js:143-161 | the response is 200 with the stored row for that id, 404 `User not found` when the id is absent, or 500 on a store failure |
| `Users.CreateUser` | backend/server.js:164-190 | a falsy field gives 400 `Name, phone, and email are required` before any query, with table and sequence unchanged; a taken email gives 400 `Email already exists` with the rows unchanged; success gives 201 with the new row under a fresh id, adds exactly one row and keeps the others; any other failure gives 500 with the rows unchanged; the invariant is kept |
| `Users.UpdateUser` | backend/server.js:193-220 | a falsy field gives 400 before any query; a missing id gives 404; an email held by another row gives 500 with the rows unchanged; success gives 200 with the updated row, replaces only that row and keeps its id; the invariant is kept |
| `Users.DeleteUser` | backend/server.js:223-241 | an existing id gives 200 `User deleted successfully` and removes exactly that row; a missing id gives 404 with the table unchanged; a store failure gives 500 |
| `Users.CreateThenGet` | backend/server.js:148-180 | a created user reads back by its id with the fields it was created with |
| `Users.CreateTwice` | backend/server.js:181-185 | a second create with the same email gives 400 `Email already exists`, and only one row was added |
| `Users.DeleteThenGet` | backend/server.js:228-236 | after a successful delete, a lookup of that id gives 404 |
| `Lines.Split` | frontend/src/utils/logger.js:56 | `split('\n')` gives at least one piece, and no piece contains a newline |
| `Lines.Join` | frontend/src/utils/logger.js:58 | `join('\n')` of one piece is that piece; the rest of its meaning is pinned by `Lines.JoinAppend` (joining any two non-empty runs puts one newline between their joins), `Lines.JoinSplit` and `Lines.SplitJoin` |
| `Lines.JoinNewlinesAtLeast` | frontend/src/utils/logger.js:58 | joining n pieces puts in at least n - 1 newlines |
| `Lines.JoinNewlines` | frontend/src/utils/logger.js:58 | joining n newline-free pieces puts in exactly n - 1 newlines |
| `Lines.JoinSplit` | frontend/src/utils/logger.js:56-58 | joining the split pieces with `'\n'` gives back the original string |
| `Lines.SplitJoin` | frontend/src/utils/logger.js:58 | splitting a join of newline-free pieces gives back the pieces |
| `Lines.JoinAppend` | frontend/src/utils/logger.js:58 | joining two non-empty runs of pieces puts exactly one newline between them |
| `Lines.JoinTailSuffix` | frontend/src/utils/logger.js:58 | any tail of the pieces, joined again, is a suffix of the whole string |
| `Lines.SplitCount` | frontend/src/utils/logger.js:56-57 | there is one more piece than there are newlines |
| `Lines.SplitSnoc` | frontend/src/utils/logger.js:18 | appending a newline appends one empty piece |
| `Lines.LastPieceEmpty` | frontend/src/utils/logger.js:56 | a string ending in a newline has an empty last piece |
| `Lines.NewlinesAppend` | frontend/src/utils/logger.js:53 | newline counts add up over concatenation |
| `Logging.KeepLastLines` | frontend/src/utils/logger.js:52-61 | the stored log is always a suffix of old log + entry and has at most 1000 pieces; with at most 1000 pieces it is exactly old log + entry; otherwise it is the last 1000 pieces, so it has 999 newlines; a trailing newline is kept |
| `Logging.TrimmedLog` | frontend/src/utils/logger.js:56-59 | the last 1000 pieces of a longer log, joined again, are a suffix of it, split back into exactly those pieces, contain 999 newlines, and keep a trailing newline |
| `Logging.TrailingNewlineKept` | frontend/src/utils/logger.js:56-59 | trimming a log that ends in a newline leaves a log that ends in a newline |
| `Logging.Logger.constructor` | frontend/src/utils/logger.js:5-13 | the level is `info` in production and `debug` otherwise, and the rank table is error 0, warn 1, info 2, debug 3 |
| `Logging.Logger.FormatMessage` | frontend/src/utils/logger.js:15-19 | an entry starts with `[timestamp] [`, followed by the upper-cased level and `] `; it ends with the message, then the data after a bar separator only when data is present, then `'\n'`; its length is the sum of its parts |
| `Logging.LevelTags` | frontend/src/utils/logger.js:18 | the four level names upper-case to `ERROR`, `WARN`, `INFO` and `DEBUG` |
| `Logging.Upper` | frontend/src/utils/logger.js:18 | upper-casing keeps the length, maps each character on its own, and neither adds nor removes newlines |
| `Logging.Logger.ShouldLog` | frontend/src/utils/logger.js:21-23 | only a level in the rank table can pass, and the configured level itself always passes |
| `Logging.Logger.StoredLogs` | frontend/src/utils/logger.js:52 | reading the log gives the stored item, or the empty string when the item is absent |
| `Logging.EntryNewlines` | frontend/src/utils/logger.js:15-18 | an entry has one newline of its own plus those of its timestamp, level, message and data |
| `Logging.AppendPieces` | frontend/src/utils/logger.js:53-56 | appending an entry adds as many pieces as the entry has newlines |
| `Logging.ErrorAlwaysLogged` | frontend/src/utils/logger.js:21-23 | `error` passes the filter at every configured level |
| `Logging.ProductionFilter` | frontend/src/utils/logger.js:6-23 | at level `info`, exactly error, warn and info pass, so debug is suppressed |
| `Logging.DevelopmentFilter` | frontend/src/utils/logger.js:6-23 | at level `debug`, exactly the four known levels pass, and an unknown level never does |
| `Logging.ShouldLogMonotone` | frontend/src/utils/logger.js:21-23 | a level of lower rank passes whenever one of higher rank does |
| `Logging.Logger.WriteToFile` | frontend/src/utils/logger.js:50-66 | the stored item becomes the trimmed concatenation of the old log and the entry |
| `Logging.Logger.Log` | frontend/src/utils/logger.js:25-48 | a filtered-out level leaves the stored log unchanged; otherwise the formatted entry is written through the trimming step |
| `Logging.Logger.ClearLogs` | frontend/src/utils/logger.js:89-95 | the item is removed, and reading the log then gives the empty string |
| `Client.SaveErrorMessage` | frontend/src/App.js:67 | the shown message is the server's non-empty `error` when there is one, otherwise `Failed to save user`; it is never empty |
| `Client.ClientCheckMatchesServer` | frontend/src/App.js:47 | the form's required-field check rejects exactly the bodies the server's check rejects |
| `Client.Incomplete` | frontend/src/App.js:47 | the form passes the client's check exactly when all three fields are non-empty |
| `Client.Editing` | frontend/src/App.js:54 | `editingId` counts as set exactly when it holds a non-zero id; an id of 0 is falsy like null |
| `Client.App.constructor` | frontend/src/App.js:6-14 | the state starts as: no users, an empty form, no edited id, not loading, no error |
| `Client.App.FetchUsers` | frontend/src/App.js:22-25 | the list is requested and `loading` is set |
| `Client.App.FetchUsersResponse` | frontend/src/App.js:25-33 | success replaces the list and clears the error; failure keeps the list and shows `Failed to fetch users`; `loading` ends false either way |
| `Client.App.HandleInputChange` | frontend/src/App.js:36-42 | only the named field of the form changes |
| `Client.App.HandleSubmit` | frontend/src/App.js:44-61 | an incomplete form shows `All fields are required`, sends nothing and changes nothing else; otherwise `loading` is set and a PUT goes out for a truthy `editingId`, else a POST |
| `Client.App.HandleSubmitResponse` | frontend/src/App.js:54-71 | success empties the form, leaves edit mode after a PUT, clears the error and refetches the list; failure keeps the form and `editingId` and shows the save error message; `loading` ends false |
| `Client.App.HandleEdit` | frontend/src/App.js:74-81 | the form takes the row's three fields and `editingId` becomes its id; nothing is sent |
| `Client.App.HandleDelete` | frontend/src/App.js:83-87 | a declined confirmation changes nothing and sends nothing; a confirmed one sets `loading` and sends a DELETE for that id |
| `Client.App.HandleDeleteResponse` | frontend/src/App.js:87-96 | success clears the error and refetches the list; failure shows `Failed to delete user`; `loading` ends false |
| `Client.App.HandleCancel` | frontend/src/App.js:99-103 | edit mode ends, the form is emptied and the error is cleared |
| `Client.App.EditThenSave` | frontend/src/App.js:44-81 | editing a row and saving it successfully sends a PUT for that row's id and fields, then leaves edit mode with an empty form |

## Left out

- Express, cors, JSON-body parsing and the request-timing middleware (`backend/server.js:69-89`) are framework plumbing and wall-clock time.
- `Users.UsersTable.Insert`, `Users.UsersTable.Update`, `Users.UsersTable.Delete`, `Users.CreateUser`, `Users.UpdateUser`, `Users.DeleteUser`: `fault` stands only for a failure that strikes before the statement takes effect, so every fault branch promises the rows unchanged. Each statement autocommits, and a connection lost after the commit but before the reply makes the query reject; the handler then answers 500 with the write already done, which no contract here allows.
- The connection pool, the startup `SELECT NOW()`, the `CREATE TABLE` call and environment defaults (`backend/server.js:6-9, 92-125`) are I/O and configuration. Only the table's constraints are modelled, through `Users.UsersTable.Valid`.
- The server-side file and console logger and the `/health` route (`backend/server.js:12-66, 244-247`) are I/O and the clock.
- Database typing is not modelled. A VARCHAR length overflow, a non-numeric `:id` and an `:id` outside the 32-bit `SERIAL` range are folded into the `fault` input. So for an out-of-range id the model's 404 holds only when `fault` is false; the database itself answers 500. A path id is an unbounded integer.
- The id sequence is unbounded here. `SERIAL` stops at 2^31 - 1, and an insert after that is a fault.
- Request fields that are JSON numbers, booleans or objects are outside the model, because `Users.UserInput` holds only strings or absence. In the code a truthy such value passes the required-field check and is stored as its text. A falsy `0` or `false` gets 400.
- The server logger's `fs.appendFileSync` runs inside each handler's `try`, including after the write has committed (`backend/server.js:179, 214, 235`). If it throws, the client gets 500 with the row already inserted, updated or deleted. No handler contract allows that outcome, because the file write is not modelled.
- Concurrent requests racing on the unique email constraint are not modelled. The database engine enforces it, and each handler is one atomic step here.
- `Logging.Logger.FormatMessage` takes the ISO timestamp and the `JSON.stringify` text as opaque strings. Its upper-casing of the level maps only ASCII letters; it is exact for the four level names.
- Console output in `log`, the localStorage exceptions caught in `writeToFile` and `clearLogs`, and `exportLogs` (Blob and DOM work) are not modelled.
- The `error`, `warn`, `info` and `debug` methods of the logger are `Logging.Logger.Log` with that level fixed, so they have no members of their own.
- React rendering and disabled buttons (`frontend/src/App.js:105-221`), axios and `window.confirm` are replaced by request values, outcome inputs and a boolean.
- The un-awaited `fetchUsers()` after a submit or delete is returned as a request. Its response is a separate `Client.App.FetchUsersResponse` step. Its interleaving with other handlers is concurrency and is not modelled.
- `Users.UsersTable.Insert`: on a fault it promises only that the id sequence does not go back, not its exact value. Postgres may or may not have drawn an id before the failure.
- `Users.CreateUser`: on a fault it gives the id sequence only the same lower bound as `Users.UsersTable.Insert`, for the same reason.

=== FILE: client.dfy ===
/**
 * The React component of frontend/src/App.js as a state machine over its
 * state hooks `users`, `formData`, `editingId`, `loading` and `error`.
 *
 * Each async handler runs in two synchronous segments separated by its
 * `await`: the first is a method that returns the HTTP request it issues, the
 * second (`...Response`) takes how that request settled. The confirmation
 * dialog's answer is an input too.
 */
module Client {
  import opened Optional
  import Users

  datatype Form = Form(name: string, phone: string, email: string)

  const EmptyForm := Form("", "", "")

  /** The `name` attribute of the input that changed. */
  datatype FieldName = NameField | PhoneField | EmailField

  /** The HTTP requests the component sends through axios. */
  datatype Request =
    | GetUsers
    | PostUser(form: Form)
    | PutUser(id: int, form: Form)
    | DeleteUser(id: int)

  /** How an awaited save or delete settled; a rejection may carry the body's `error` field. */
  datatype Outcome = Succeeded | Rejected(serverError: Option<string>)

  /** How the awaited list request settled. */
  datatype FetchOutcome = Fetched(list: seq<Users.User>) | FetchFailed

  const AllFieldsRequiredMsg := "All fields are required"
  const SaveFailedMsg := "Failed to save user"
  const DeleteFailedMsg := "Failed to delete user"
  const FetchFailedMsg := "Failed to fetch users"

  /** `!formData.name || !formData.phone || !formData.email`. */
  predicate Incomplete(f: Form)
    ensures !Incomplete(f) <==> |f.name| > 0 && |f.phone| > 0 && |f.email| > 0
  {
    f.name == "" || f.phone == "" || f.email == ""
  }

  /** JavaScript truthiness of `editingId`: not null and not 0. */
  predicate Editing(editingId: Option<int>)
    ensures Editing(editingId) ==> editingId.Some?
    ensures editingId.Some? && editingId.value != 0 ==> Editing(editingId)
    ensures editingId == None || editingId == Some(0) ==> !Editing(editingId)
  {
    editingId.Some? && editingId.value != 0
  }

  /** `err.response?.data?.error || 'Failed to save user'`. */
  function SaveErrorMessage(serverError: Option<string>): (m: string)
    ensures m != ""
    ensures serverError.Some? && serverError.value != "" ==> m == serverError.value
    ensures serverError.None? || serverError.value == "" ==> m == SaveFailedMsg
  {
    if serverError.Some? && serverError.value != "" then serverError.value else SaveFailedMsg
  }

  /** The body the form sends, as the server reads it. */
  function AsInput(f: Form): Users.UserInput
  {
    Users.UserInput(Some(f.name), Some(f.phone), Some(f.email))
  }

  /** A form the client lets through also passes the server's required-field check, and vice versa. */
  lemma ClientCheckMatchesServer(f: Form)
    ensures Incomplete(f) <==> Users.MissingRequired(AsInput(f))
    ensures !Incomplete(f) ==> Users.Fields(AsInput(f)) == Users.Row(f.name, f.phone, f.email)
  {
  }

  class App {
    var users: seq<Users.User>
    var formData: Form
    var editingId: Option<int>
    var loading: bool
    var error: string

    /** The initial values of the `useState` hooks. */
    constructor ()
      ensures users == [] && formData == EmptyForm && editingId == None && !loading && error == ""
    {
      users := [];
      formData := EmptyForm;
      editingId := None;
      loading := false;
      error := "";
    }

    /** `fetchUsers` up to its `await`; also run once on mount. */
    method FetchUsers() returns (req: Request)
      modifies this`loading
      ensures loading && req == GetUsers
    {
      loading := true;
      req := GetUsers;
    }

    /** `fetchUsers` after its `await`: a failure keeps the previous list. */
    method FetchUsersResponse(outcome: FetchOutcome)
      modifies this`users, this`error, this`loading
      ensures !loading
      ensures outcome.Fetched? ==> users == outcome.list && error == ""
      ensures outcome.FetchFailed? ==> users == old(users) && error == FetchFailedMsg
    {
      match outcome {
        case Fetched(list) =>
          users := list;
          error := "";
        case FetchFailed =>
          error := FetchFailedMsg;
      }
      loading := false;
    }

    /** `handleInputChange`: one field of the form takes the typed value. */
    method HandleInputChange(field: FieldName, value: string)
      modifies this`formData
      ensures field.NameField? ==> formData == old(formData).(name := value)
      ensures field.PhoneField? ==> formData == old(formData).(phone := value)
      ensures field.EmailField? ==> formData == old(formData).(email := value)
    {
      match field
      case NameField => formData := formData.(name := value);
      case PhoneField => formData := formData.(phone := value);
      case EmailField => formData := formData.(email := value);
    }

    /**
     * `handleSubmit` up to its `await`: an incomplete form only sets the
     * error; otherwise the request is a PUT for the edited id or a POST.
     */
    method HandleSubmit() returns (req: Option<Request>)
      modifies this`loading, this`error
      ensures Incomplete(old(formData)) ==>
        req == None && error == AllFieldsRequiredMsg && loading == old(loading)
      ensures !Incomplete(old(formData)) ==> loading && error == old(error)
      ensures !Incomplete(old(formData)) && Editing(editingId) ==> req == Some(PutUser(editingId.value, formData))
      ensures !Incomplete(old(formData)) && !Editing(editingId) ==> req == Some(PostUser(formData))
    {
      if Incomplete(formData) {
        error := AllFieldsRequiredMsg;
        return None;
      }
      loading := true;
      if Editing(editingId) {
        req := Some(PutUser(editingId.value, formData));
      } else {
        req := Some(PostUser(formData));
      }
    }

    /**
     * `handleSubmit` after its `await`. On success the form is emptied, an
     * update also leaves edit mode, and the list is fetched again without
     * waiting; the `finally` then clears `loading`, overriding the `true`
     * that `fetchUsers` set. On failure the form and `editingId` stay.
     */
    method HandleSubmitResponse(sent: Request, outcome: Outcome) returns (refetch: Option<Request>)
      requires sent.PostUser? || sent.PutUser?
      modifies this`formData, this`editingId, this`error, this`loading
      ensures !loading
      ensures outcome.Succeeded? ==>
        formData == EmptyForm && error == "" && refetch == Some(GetUsers)
        && editingId == (if sent.PutUser? then None else old(editingId))
      ensures outcome.Rejected? ==>
        formData == old(formData) && editingId == old(editingId) && refetch == None
        && error == SaveErrorMessage(outcome.serverError)
    {
      refetch := None;
      if outcome.Succeeded? {
        if sent.PutUser? {
          editingId := None;
        }
        formData := EmptyForm;
        var req := FetchUsers();
        refetch := Some(req);
        error := "";
      } else {
        error := SaveErrorMessage(outcome.serverError);
      }
      loading := false;
    }

    /** `handleEdit`: load a row into the form and enter edit mode; nothing is sent. */
    method HandleEdit(user: Users.User)
      modifies this`formData, this`editingId
      ensures formData == Form(user.name, user.phone, user.email)
      ensures editingId == Some(user.id)
    {
      formData := Form(user.name, user.phone, user.email);
      editingId := Some(user.id);
    }

    /** `handleDelete` up to its `await`; a declined confirmation does nothing. */
    method HandleDelete(id: int, confirmed: bool) returns (req: Option<Request>)
      modifies this`loading
      ensures !confirmed ==> req == None && loading == old(loading)
      ensures confirmed ==> req == Some(DeleteUser(id)) && loading
    {
      req := None;
      if confirmed {
        loading := true;
        req := Some(DeleteUser(id));
      }
    }

    /** `handleDelete` after its `await`; the server's message is not shown. */
    method HandleDeleteResponse(outcome: Outcome) returns (refetch: Option<Request>)
      modifies this`error, this`loading
      ensures !loading
      ensures outcome.Succeeded? ==> error == "" && refetch == Some(GetUsers)
      ensures outcome.Rejected? ==> error == DeleteFailedMsg && refetch == None
    {
      refetch := None;
      if outcome.Succeeded? {
        var req := FetchUsers();
        refetch := Some(req);
        error := "";
      } else {
        error := DeleteFailedMsg;
      }
      loading := false;
    }

    /** `handleCancel`: leave edit mode with an empty form and no error. */
    method HandleCancel()
      modifies this`editingId, this`formData, this`error
      ensures editingId == None && formData == EmptyForm && error == ""
    {
      editingId := None;
      formData := EmptyForm;
      error := "";
    }

    /** Editing a row and saving it sends a PUT for that row's id, then leaves edit mode. */
    method EditThenSave(user: Users.User) returns (req: Option<Request>, refetch: Option<Request>)
      requires user.id != 0 && user.name != "" && user.phone != "" && user.email != ""
      modifies this
      ensures req == Some(PutUser(user.id, Form(user.name, user.phone, user.email)))
      ensures refetch == Some(GetUsers)
      ensures editingId == None && formData == EmptyForm && error == "" && !loading
    {
      HandleEdit(user);
      req := HandleSubmit();
      refetch := HandleSubmitResponse(req.value, Succeeded);
    }
  }
}

=== FILE: lines.dfy ===
/**
 * The JavaScript string operations the browser logger uses on its stored log:
 * `s.split('\n')` and `pieces.join('\n')`, with the facts about them that the
 * log-trimming step relies on.
 */
module Lines {

  const NL: char := '\n'

  /** Number of newline characters in `s`. */
  function Newlines(s: string): (n: nat)
    ensures n <= |s|
    ensures n == 0 <==> NL !in s
  {
    if s == [] then 0 else (if s[0] == NL then 1 else 0) + Newlines(s[1..])
  }

  /**
   * `s.split('\n')`: the newline-free pieces between the newlines of `s`, in
   * order. There is always at least one piece; `"".split('\n')` is `[""]`.
   */
  function Split(s: string): (ps: seq<string>)
    ensures |ps| >= 1
    ensures forall i :: 0 <= i < |ps| ==> NL !in ps[i]
  {
    if s == [] then [[]]
    else
      var rest := Split(s[1..]);
      if s[0] == NL then [[]] + rest
      else [[s[0]] + rest[0]] + rest[1..]
  }

  /** `ps.join('\n')`. */
  function Join(ps: seq<string>): (s: string)
    ensures |ps| == 1 ==> s == ps[0]
  {
    if |ps| == 0 then []
    else if |ps| == 1 then ps[0]
    else ps[0] + [NL] + Join(ps[1..])
  }

  /** Joining n pieces puts at least n - 1 newlines in. */
  lemma {:induction false} JoinNewlinesAtLeast(ps: seq<string>)
    requires |ps| >= 1
    ensures Newlines(Join(ps)) >= |ps| - 1
  {
    if |ps| > 1 {
      JoinNewlinesAtLeast(ps[1..]);
      NewlinesAppend(ps[0], [NL]);
      NewlinesAppend(ps[0] + [NL], Join(ps[1..]));
    }
  }

  /** Joining n newline-free pieces puts exactly n - 1 newlines in. */
  lemma {:induction false} JoinNewlines(ps: seq<string>)
    requires |ps| >= 1
    requires forall i :: 0 <= i < |ps| ==> NL !in ps[i]
    ensures Newlines(Join(ps)) == |ps| - 1
  {
    if |ps| > 1 {
      JoinNewlines(ps[1..]);
      NewlinesAppend(ps[0], [NL]);
      NewlinesAppend(ps[0] + [NL], Join(ps[1..]));
    }
  }

  /** `t` is a suffix of `s`. */
  predicate IsSuffix(t: string, s: string)
  {
    |t| <= |s| && s[|s| - |t|..] == t
  }

  predicate EndsWithNewline(s: string)
  {
    |s| > 0 && s[|s| - 1] == NL
  }

  /** Joining the pieces of a split gives the string back. */
  lemma {:induction false} JoinSplit(s: string)
    ensures Join(Split(s)) == s
  {
    if s != [] {
      var rest := Split(s[1..]);
      JoinSplit(s[1..]);
      assert s == [s[0]] + s[1..];
      if s[0] == NL {
        assert ([[]] + rest)[1..] == rest;
      } else {
        JoinCons(s[0], rest);
      }
    }
  }

  /** Gluing a character to the first piece glues it to the front of the join. */
  lemma {:induction false} JoinCons(x: char, ps: seq<string>)
    requires |ps| >= 1
    ensures Join([[x] + ps[0]] + ps[1..]) == [x] + Join(ps)
  {
  }

  /** Splitting a newline-free prefix glues it to the first piece. */
  lemma {:induction false} SplitPrefix(p: string, t: string)
    requires NL !in p
    ensures Split(p + t) == [p + Split(t)[0]] + Split(t)[1..]
  {
    if p != [] {
      SplitPrefix(p[1..], t);
      assert p + t == [p[0]] + (p[1..] + t);
      assert (p + t)[1..] == p[1..] + t;
      assert [p[0]] + (p[1..] + Split(t)[0]) == p + Split(t)[0];
    } else {
      assert p + t == t && p + Split(t)[0] == Split(t)[0];
    }
  }

  /** Splitting the join of newline-free pieces gives the pieces back. */
  lemma {:induction false} SplitJoin(ps: seq<string>)
    requires |ps| >= 1
    requires forall i :: 0 <= i < |ps| ==> NL !in ps[i]
    ensures Split(Join(ps)) == ps
  {
    if |ps| == 1 {
      SplitPrefix(ps[0], []);
      assert ps[0] + [] == ps[0];
    } else {
      var tail := Join(ps[1..]);
      SplitJoin(ps[1..]);
      assert Join(ps) == ps[0] + ([NL] + tail);
      SplitPrefix(ps[0], [NL] + tail);
      assert ([NL] + tail)[1..] == tail;
      assert Split([NL] + tail) == [[]] + ps[1..];
      assert ps[0] + [] == ps[0];
      assert ps == [ps[0]] + ps[1..];
    }
  }

  /** Joining two non-empty runs of pieces puts one newline between them. */
  lemma {:induction false} JoinAppend(a: seq<string>, b: seq<string>)
    requires |a| >= 1 && |b| >= 1
    ensures Join(a + b) == Join(a) + [NL] + Join(b)
  {
    if |a| > 1 {
      JoinAppend(a[1..], b);
      assert (a + b)[1..] == a[1..] + b;
    } else {
      assert (a + b)[1..] == b;
    }
  }

  /** Any tail of the pieces, joined back, is a suffix of the original join. */
  lemma JoinTailSuffix(ps: seq<string>, k: nat)
    requires k < |ps|
    ensures IsSuffix(Join(ps[k..]), Join(ps))
  {
    if k > 0 {
      JoinAppend(ps[..k], ps[k..]);
      assert ps[..k] + ps[k..] == ps;
    }
  }

  /** There is one more piece than there are newlines. */
  lemma {:induction false} SplitCount(s: string)
    ensures |Split(s)| == Newlines(s) + 1
  {
    if s != [] {
      SplitCount(s[1..]);
    }
  }

  /** Appending a newline appends one empty piece. */
  lemma {:induction false} SplitSnoc(u: string)
    ensures Split(u + [NL]) == Split(u) + [[]]
  {
    if u != [] {
      SplitSnoc(u[1..]);
      assert (u + [NL])[1..] == u[1..] + [NL];
      assert (u + [NL])[0] == u[0];
    }
  }

  /** A string ending in a newline splits into pieces whose last one is empty. */
  lemma {:induction false} LastPieceEmpty(s: string)
    requires EndsWithNewline(s)
    ensures Split(s)[|Split(s)| - 1] == []
  {
    var u := s[..|s| - 1];
    assert s == u + [NL];
    SplitSnoc(u);
  }

  /** Newlines add up over concatenation. */
  lemma {:induction false} NewlinesAppend(a: string, b: string)
    ensures Newlines(a + b) == Newlines(a) + Newlines(b)
  {
    if a != [] {
      NewlinesAppend(a[1..], b);
      assert (a + b)[1..] == a[1..] + b;
    } else {
      assert a + b == b;
    }
  }
}

=== FILE: logging.dfy ===
/**
 * The browser-side logger of frontend/src/utils/logger.js: a level filter over
 * a fixed rank table, a one-entry formatter, and a log kept in one
 * localStorage item that is trimmed to its last 1000 newline-separated pieces
 * on every write.
 *
 * The clock (`new Date().toISOString()`) and `JSON.stringify` of the optional
 * data are inputs: `timestamp` and `data` are the strings they produced.
 */
module Logging {
  import opened Optional
  import opened Lines

  /** How many newline-separated pieces the stored log keeps. */
  const MaxLines: nat := 1000

  /** The `logLevels` table the constructor installs. */
  const LevelTable: map<string, int> := map["error" := 0, "warn" := 1, "info" := 2, "debug" := 3]

  /** ASCII upper-casing of one character (`toUpperCase` on the level names). */
  function UpperChar(c: char): char
  {
    if 'a' <= c <= 'z' then (c as int - 'a' as int + 'A' as int) as char else c
  }

  function Upper(s: string): (r: string)
    ensures |r| == |s|
    ensures forall i :: 0 <= i < |s| ==> r[i] == UpperChar(s[i])
    ensures forall i :: 0 <= i < |s| ==> (r[i] == NL <==> s[i] == NL)
  {
    if s == [] then [] else [UpperChar(s[0])] + Upper(s[1..])
  }

  /**
   * What `writeToFile` stores for the concatenation `newLogs` of the old log
   * and the new entry: `newLogs` itself when it splits into at most
   * `MaxLines` pieces, otherwise its last `MaxLines` pieces joined again.
   */
  function KeepLastLines(newLogs: string): (r: string)
    ensures IsSuffix(r, newLogs)
    ensures |Split(r)| <= MaxLines
    ensures |Split(newLogs)| <= MaxLines ==> r == newLogs
    ensures |Split(newLogs)| > MaxLines ==>
      Split(r) == Split(newLogs)[|Split(newLogs)| - MaxLines..] && Newlines(r) == MaxLines - 1
    ensures EndsWithNewline(newLogs) ==> EndsWithNewline(r)
  {
    var logLines := Split(newLogs);
    if |logLines| > MaxLines then
      var kept := logLines[|logLines| - MaxLines..];
      TrimmedLog(newLogs, kept);
      Join(kept)
    else
      newLogs
  }

  /** The last `MaxLines` pieces of a longer log, joined again. */
  lemma {:induction false} TrimmedLog(newLogs: string, kept: seq<string>)
    requires |Split(newLogs)| > MaxLines
    requires kept == Split(newLogs)[|Split(newLogs)| - MaxLines..]
    ensures IsSuffix(Join(kept), newLogs)
    ensures Split(Join(kept)) == kept
    ensures Newlines(Join(kept)) == MaxLines - 1
    ensures EndsWithNewline(newLogs) ==> EndsWithNewline(Join(kept))
  {
    var ps := Split(newLogs);
    var r := Join(kept);
    JoinSplit(newLogs);
    JoinTailSuffix(ps, |ps| - MaxLines);
    SplitJoin(kept);
    SplitCount(r);
    TrailingNewlineKept(newLogs, kept);
  }

  /** The last `MaxLines` pieces of a log that ends in a newline end in a newline. */
  lemma {:induction false} TrailingNewlineKept(newLogs: string, kept: seq<string>)
    requires |Split(newLogs)| > MaxLines
    requires kept == Split(newLogs)[|Split(newLogs)| - MaxLines..]
    ensures EndsWithNewline(newLogs) ==> EndsWithNewline(Join(kept))
  {
    if EndsWithNewline(newLogs) {
      LastPieceEmpty(newLogs);
      var front := kept[..|kept| - 1];
      assert kept == front + [[]];
      JoinAppend(front, [[]]);
    }
  }

  class Logger {
    /** `'info'` in production, `'debug'` otherwise. */
    const logLevel: string
    const logLevels: map<string, int>
    /** The localStorage item `usermanagement_logs`; `None` when it is absent. */
    var storage: Option<string>

    ghost predicate Valid()
    {
      logLevels == LevelTable && (logLevel == "info" || logLevel == "debug")
    }

    /** `production` is `process.env.NODE_ENV === 'production'`; `stored` is what localStorage already holds. */
    constructor (production: bool, stored: Option<string>)
      ensures Valid()
      ensures logLevel == (if production then "info" else "debug")
      ensures storage == stored
    {
      logLevel := if production then "info" else "debug";
      logLevels := LevelTable;
      storage := stored;
    }

    /**
     * `this.logLevels[level] <= this.logLevels[this.logLevel]`; a level missing
     * from the table looks up `undefined`, and a comparison with `undefined` is false.
     */
    predicate ShouldLog(level: string)
      ensures ShouldLog(level) ==> level in logLevels
      ensures level == logLevel && logLevel in logLevels ==> ShouldLog(level)
    {
      level in logLevels && logLevel in logLevels && logLevels[level] <= logLevels[logLevel]
    }

    /** `localStorage.getItem('usermanagement_logs') || ''`. */
    function StoredLogs(): (r: string)
      reads this
      ensures storage.Some? ==> r == storage.value
      ensures storage.None? ==> r == ""
    {
      if storage.Some? then storage.value else ""
    }

    /** One log entry: `[ts] [LEVEL] message`, then ` | data` when data is present, then a newline. */
    static function FormatMessage(timestamp: string, level: string, message: string, data: Option<string>): (r: string)
      ensures EndsWithNewline(r)
      ensures |r| == |timestamp| + |level| + |message| + 7 + (if data.Some? then |data.value| + 3 else 0)
      ensures r[..|timestamp| + 4] == "[" + timestamp + "] ["
      ensures r[|timestamp| + 4 .. |timestamp| + |level| + 6] == Upper(level) + "] "
      ensures IsSuffix(message + (if data.Some? then " | " + data.value else "") + "\n", r)
    {
      var dataString := if data.Some? then " | " + data.value else "";
      var head := "[" + timestamp + "] [";
      var tag := Upper(level) + "] ";
      var tail := message + dataString + "\n";
      assert (head + tag + tail)[..|head|] == head;
      assert (head + tag + tail)[|head|..|head| + |tag|] == tag;
      assert (head + tag + tail)[|head| + |tag|..] == tail;
      head + tag + tail
    }

    method WriteToFile(logEntry: string)
      modifies this`storage
      ensures storage == Some(KeepLastLines(old(StoredLogs()) + logEntry))
    {
      var existingLogs := StoredLogs();
      var newLogs := existingLogs + logEntry;
      var logLines := Split(newLogs);
      if |logLines| > MaxLines {
        var trimmedLogs := Join(logLines[|logLines| - MaxLines..]);
        assert trimmedLogs == KeepLastLines(newLogs);
        storage := Some(trimmedLogs);
      } else {
        assert newLogs == KeepLastLines(newLogs);
        storage := Some(newLogs);
      }
    }

    method Log(level: string, message: string, data: Option<string>, timestamp: string)
      modifies this`storage
      ensures !ShouldLog(level) ==> storage == old(storage)
      ensures ShouldLog(level) ==>
        storage == Some(KeepLastLines(old(StoredLogs()) + FormatMessage(timestamp, level, message, data)))
    {
      if !ShouldLog(level) {
        return;
      }
      var logEntry := FormatMessage(timestamp, level, message, data);
      WriteToFile(logEntry);
    }

    method ClearLogs()
      modifies this`storage
      ensures storage == None && StoredLogs() == ""
    {
      storage := None;
    }
  }

  /** The four level names upper-case to the tags an entry carries. */
  lemma LevelTags()
    ensures Upper("error") == "ERROR" && Upper("warn") == "WARN"
    ensures Upper("info") == "INFO" && Upper("debug") == "DEBUG"
  {
    UpperWord("error", "ERROR");
    UpperWord("warn", "WARN");
    UpperWord("info", "INFO");
    UpperWord("debug", "DEBUG");
  }

  lemma UpperWord(s: string, t: string)
    requires |s| == |t| && forall i :: 0 <= i < |s| ==> UpperChar(s[i]) == t[i]
    ensures Upper(s) == t
  {
  }

  /** `error` passes the filter at either configured level. */
  lemma ErrorAlwaysLogged(l: Logger)
    requires l.Valid()
    ensures l.ShouldLog("error")
  {
  }

  /** In production (`info`) exactly error, warn and info pass; debug is suppressed. */
  lemma ProductionFilter(l: Logger, level: string)
    requires l.Valid() && l.logLevel == "info"
    ensures l.ShouldLog(level) <==> level == "error" || level == "warn" || level == "info"
  {
  }

  /** In development (`debug`) exactly the four known levels pass. */
  lemma DevelopmentFilter(l: Logger, level: string)
    requires l.Valid() && l.logLevel == "debug"
    ensures l.ShouldLog(level) <==> level in LevelTable
  {
  }

  /** The filter is monotone in the rank: a level passes when a noisier one does. */
  lemma ShouldLogMonotone(l: Logger, quiet: string, noisy: string)
    requires l.Valid()
    requires quiet in LevelTable && noisy in LevelTable && LevelTable[quiet] <= LevelTable[noisy]
    ensures l.ShouldLog(noisy) ==> l.ShouldLog(quiet)
  {
  }

  lemma {:induction false} UpperNewlines(s: string)
    ensures Newlines(Upper(s)) == Newlines(s)
  {
    if s != [] {
      UpperNewlines(s[1..]);
    }
  }

  /**
   * An entry carries one newline of its own plus those of its parts (the
   * pretty-printed JSON data may hold many), so one write adds that many
   * pieces to the stored log, not one.
   */
  lemma EntryNewlines(timestamp: string, level: string, message: string, data: Option<string>)
    ensures Newlines(Logger.FormatMessage(timestamp, level, message, data))
      == 1 + Newlines(timestamp) + Newlines(level) + Newlines(message)
           + (if data.Some? then Newlines(data.value) else 0)
  {
    var dataString := if data.Some? then " | " + data.value else "";
    var head := "[" + timestamp + "] [";
    var tag := Upper(level) + "] ";
    var tail := message + dataString + "\n";
    assert Logger.FormatMessage(timestamp, level, message, data) == head + tag + tail;
    assert Newlines("[") == 0 && Newlines("] [") == 0 && Newlines("] ") == 0;
    assert Newlines("\n") == 1;
    NewlinesAppend("[", timestamp);
    NewlinesAppend("[" + timestamp, "] [");
    UpperNewlines(level);
    NewlinesAppend(Upper(level), "] ");
    if data.Some? {
      assert Newlines(" | ") == 0;
      NewlinesAppend(" | ", data.value);
    }
    NewlinesAppend(message, dataString);
    NewlinesAppend(message + dataString, "\n");
    NewlinesAppend(head, tag);
    NewlinesAppend(head + tag, tail);
  }

  /** Appending an entry adds as many pieces as the entry has newlines. */
  lemma AppendPieces(existing: string, entry: string)
    ensures |Split(existing + entry)| == |Split(existing)| + Newlines(entry)
  {
    SplitCount(existing + entry);
    SplitCount(existing);
    NewlinesAppend(existing, entry);
  }
}

=== FILE: option.dfy ===
/** An optional value: a JavaScript `null`/`undefined` or a present value. */
module Optional {
  datatype Option<+T> = None | Some(value: T)
}

=== FILE: users.dfy ===
/**
 * The `/api/users` service of backend/server.js: a `users` table
 * (`id SERIAL PRIMARY KEY`, `name`, `phone`, `email UNIQUE NOT NULL`), one
 * method per SQL statement the handlers issue, and the five route handlers,
 * each returning the HTTP status and JSON body it sends.
 *
 * A failure of the database that the table's own rules do not explain, and
 * that strikes before the statement takes effect, is the input `fault`: a
 * connection lost before the statement commits, a value too long for its
 * VARCHAR column, an `:id` that is not an integer or lies outside the 32-bit
 * range of `SERIAL`, or an exhausted id sequence. Postgres reports these with
 * various SQLSTATEs, and a lost connection with a Node error code instead; the
 * model stands for all of them with the one code `XX000`, never `23505`. A
 * connection lost after the commit is not modelled.
 */
module Users {
  import opened Optional

  /** The three columns a request writes. */
  datatype Row = Row(name: string, phone: string, email: string)

  /** A row as `SELECT *` and `RETURNING *` give it back. */
  datatype User = User(id: int, name: string, phone: string, email: string)

  /** The JSON request body `{ name, phone, email }`; `None` is an absent key. */
  datatype UserInput = UserInput(name: Option<string>, phone: Option<string>, email: Option<string>)

  /** What `pool.query` resolves to (`result.rows`), or the `err.code` it rejects with. */
  datatype QueryResult = Rows(rows: seq<User>) | DbError(code: string)

  datatype Body =
    | UserJson(user: User)
    | UsersJson(list: seq<User>)
    | ErrorJson(error: string)
    | MessageJson(message: string)

  datatype Response = Response(status: int, body: Body)

  /** SQLSTATE unique_violation. */
  const UniqueViolation := "23505"
  /** SQLSTATE standing for every other failure (internal_error). */
  const OtherFailure := "XX000"

  const RequiredFieldsMsg := "Name, phone, and email are required"
  const EmailExistsMsg := "Email already exists"
  const NotFoundMsg := "User not found"
  const ServerErrorMsg := "Server error"
  const DeletedMsg := "User deleted successfully"

  function UserOf(id: int, r: Row): User
  {
    User(id, r.name, r.phone, r.email)
  }

  /** The row `u` is in the table. */
  predicate Stored(rows: map<int, Row>, u: User)
  {
    u.id in rows && rows[u.id] == Row(u.name, u.phone, u.email)
  }

  /** `UNIQUE` on `email`: no two rows share an email. */
  predicate EmailsUnique(rows: map<int, Row>)
  {
    forall i, j :: i in rows && j in rows && rows[i].email == rows[j].email ==> i == j
  }

  predicate EmailTaken(rows: map<int, Row>, email: string)
  {
    exists j :: j in rows && rows[j].email == email
  }

  /** Some row other than `id` holds `email`. */
  predicate EmailTakenByOther(rows: map<int, Row>, email: string, id: int)
  {
    exists j :: j in rows && j != id && rows[j].email == email
  }

  predicate StrictlyAscending(us: seq<User>)
  {
    forall i, j :: 0 <= i < j < |us| ==> us[i].id < us[j].id
  }

  /** JavaScript falsiness of a body field: absent or the empty string. */
  predicate Falsy(f: Option<string>)
  {
    f.None? || f.value == ""
  }

  /** `!name || !phone || !email`. */
  predicate MissingRequired(body: UserInput)
    ensures !MissingRequired(body) <==>
      body.name.Some? && body.phone.Some? && body.email.Some?
      && |body.name.value| > 0 && |body.phone.value| > 0 && |body.email.value| > 0
  {
    Falsy(body.name) || Falsy(body.phone) || Falsy(body.email)
  }

  function Fields(body: UserInput): Row
    requires !MissingRequired(body)
  {
    Row(body.name.value, body.phone.value, body.email.value)
  }

  /** The rows with id below `n`, in ascending id order (`ORDER BY id`). */
  function Listing(rows: map<int, Row>, n: int): (us: seq<User>)
    ensures StrictlyAscending(us)
    ensures forall i :: 0 <= i < |us| ==> us[i].id < n
    decreases n
  {
    if n <= 0 then []
    else Listing(rows, n - 1) + (if n - 1 in rows then [UserOf(n - 1, rows[n - 1])] else [])
  }

  /** The listing holds exactly the stored rows with ids in `[0, n)`. */
  lemma {:induction false} ListingComplete(rows: map<int, Row>, n: int)
    ensures forall u :: u in Listing(rows, n) <==> 0 <= u.id < n && Stored(rows, u)
    decreases n
  {
    if n > 0 {
      ListingComplete(rows, n - 1);
    }
  }

  function KeysBelow(rows: map<int, Row>, n: int): set<int>
  {
    set id | id in rows && 0 <= id < n
  }

  /** The listing has one entry per stored id in `[0, n)`. */
  lemma {:induction false} ListingLength(rows: map<int, Row>, n: int)
    ensures |Listing(rows, n)| == |KeysBelow(rows, n)|
    decreases n
  {
    if n <= 0 {
      assert KeysBelow(rows, n) == {};
    } else {
      ListingLength(rows, n - 1);
      if n - 1 in rows {
        assert KeysBelow(rows, n) == KeysBelow(rows, n - 1) + {n - 1};
      } else {
        assert KeysBelow(rows, n) == KeysBelow(rows, n - 1);
      }
    }
  }

  /** The `users` table and its id sequence. */
  class UsersTable {
    var rows: map<int, Row>
    /** The next value `nextval('users_id_seq')` hands out. */
    var nextId: int

    /** Ids come from the sequence (so they are below its next value) and emails are unique. */
    ghost predicate Valid()
      reads this
    {
      1 <= nextId && (forall id :: id in rows ==> 1 <= id < nextId) && EmailsUnique(rows)
    }

    /** `CREATE TABLE IF NOT EXISTS users (...)` on an empty database. */
    constructor ()
      ensures Valid() && rows == map[] && nextId == 1
    {
      rows := map[];
      nextId := 1;
    }

    /** `SELECT * FROM users ORDER BY id`. */
    method SelectAll(fault: bool) returns (r: QueryResult)
      requires Valid()
      ensures fault ==> r == DbError(OtherFailure)
      ensures !fault ==> r == Rows(Listing(rows, nextId))
    {
      if fault {
        return DbError(OtherFailure);
      }
      r := Rows(Listing(rows, nextId));
    }

    /** `SELECT * FROM users WHERE id = $1`. */
    method SelectById(id: int, fault: bool) returns (r: QueryResult)
      requires Valid()
      ensures fault ==> r == DbError(OtherFailure)
      ensures !fault ==> r == Rows(if id in rows then [UserOf(id, rows[id])] else [])
    {
      if fault {
        return DbError(OtherFailure);
      }
      r := Rows(if id in rows then [UserOf(id, rows[id])] else []);
    }

    /**
     * `INSERT INTO users (name, phone, email) VALUES ($1, $2, $3) RETURNING *`.
     * The id is drawn from the sequence before the unique check, and a
     * sequence is not rolled back, so a rejected duplicate still uses one up.
     * A fault may strike before or after that draw, so it may use one up too.
     */
    method Insert(row: Row, fault: bool) returns (r: QueryResult)
      requires Valid()
      modifies this
      ensures Valid()
      ensures fault ==> r == DbError(OtherFailure) && rows == old(rows) && nextId >= old(nextId)
      ensures !fault && EmailTaken(old(rows), row.email) ==>
        r == DbError(UniqueViolation) && rows == old(rows) && nextId == old(nextId) + 1
      ensures !fault && !EmailTaken(old(rows), row.email) ==>
        old(nextId) !in old(rows)
        && r == Rows([UserOf(old(nextId), row)])
        && rows == old(rows)[old(nextId) := row]
        && nextId == old(nextId) + 1
    {
      if fault {
        return DbError(OtherFailure);
      }
      var id := nextId;
      nextId := nextId + 1;
      if exists j :: j in rows && rows[j].email == row.email {
        return DbError(UniqueViolation);
      }
      rows := rows[id := row];
      r := Rows([UserOf(id, row)]);
    }

    /**
     * `UPDATE users SET name = $1, phone = $2, email = $3 WHERE id = $4 RETURNING *`.
     * When no row has the id nothing is written, so the unique check never fires.
     */
    method Update(id: int, row: Row, fault: bool) returns (r: QueryResult)
      requires Valid()
      modifies this`rows
      ensures Valid()
      ensures fault ==> r == DbError(OtherFailure) && rows == old(rows)
      ensures !fault && id !in old(rows) ==> r == Rows([]) && rows == old(rows)
      ensures !fault && id in old(rows) && EmailTakenByOther(old(rows), row.email, id) ==>
        r == DbError(UniqueViolation) && rows == old(rows)
      ensures !fault && id in old(rows) && !EmailTakenByOther(old(rows), row.email, id) ==>
        r == Rows([UserOf(id, row)]) && rows == old(rows)[id := row]
    {
      if fault {
        return DbError(OtherFailure);
      }
      if id !in rows {
        return Rows([]);
      }
      if exists j :: j in rows && j != id && rows[j].email == row.email {
        return DbError(UniqueViolation);
      }
      rows := rows[id := row];
      r := Rows([UserOf(id, row)]);
    }

    /** `DELETE FROM users WHERE id = $1 RETURNING *`. */
    method Delete(id: int, fault: bool) returns (r: QueryResult)
      requires Valid()
      modifies this`rows
      ensures Valid()
      ensures fault ==> r == DbError(OtherFailure) && rows == old(rows)
      ensures !fault && id !in old(rows) ==> r == Rows([]) && rows == old(rows)
      ensures !fault && id in old(rows) ==>
        r == Rows([UserOf(id, old(rows)[id])]) && rows == old(rows) - {id}
    {
      if fault {
        return DbError(OtherFailure);
      }
      if id !in rows {
        return Rows([]);
      }
      r := Rows([UserOf(id, rows[id])]);
      rows := rows - {id};
    }
  }

  function ServerError(): Response
  {
    Response(500, ErrorJson(ServerErrorMsg))
  }

  /** `GET /api/users`. */
  method GetAllUsers(users: UsersTable, fault: bool) returns (res: Response)
    requires users.Valid()
    ensures fault ==> res == ServerError()
    ensures !fault ==>
      res.status == 200 && res.body.UsersJson?
      && StrictlyAscending(res.body.list)
      && (forall u :: u in res.body.list <==> Stored(users.rows, u))
      && |res.body.list| == |users.rows|
  {
    var result := users.SelectAll(fault);
    match result
    case Rows(list) =>
      ListingComplete(users.rows, users.nextId);
      ListingLength(users.rows, users.nextId);
      assert KeysBelow(users.rows, users.nextId) == users.rows.Keys;
      res := Response(200, UsersJson(list));
    case DbError(_) =>
      res := ServerError();
  }

  /** `GET /api/users/:id`. */
  method GetUserById(users: UsersTable, id: int, fault: bool) returns (res: Response)
    requires users.Valid()
    ensures fault ==> res == ServerError()
    ensures !fault && id !in users.rows ==> res == Response(404, ErrorJson(NotFoundMsg))
    ensures !fault && id in users.rows ==>
      res.status == 200 && res.body.UserJson? && res.body.user.id == id && Stored(users.rows, res.body.user)
  {
    var result := users.SelectById(id, fault);
    match result
    case Rows(rows) =>
      if |rows| == 0 {
        return Response(404, ErrorJson(NotFoundMsg));
      }
      res := Response(200, UserJson(rows[0]));
    case DbError(_) =>
      res := ServerError();
  }

  /** `POST /api/users`. */
  method CreateUser(users: UsersTable, body: UserInput, fault: bool) returns (res: Response)
    requires users.Valid()
    modifies users
    ensures users.Valid()
    ensures MissingRequired(body) ==>
      res == Response(400, ErrorJson(RequiredFieldsMsg))
      && users.rows == old(users.rows) && users.nextId == old(users.nextId)
    ensures !MissingRequired(body) && fault ==>
      res == ServerError() && users.rows == old(users.rows) && users.nextId >= old(users.nextId)
    ensures !MissingRequired(body) && !fault && EmailTaken(old(users.rows), Fields(body).email) ==>
      res == Response(400, ErrorJson(EmailExistsMsg))
      && users.rows == old(users.rows) && users.nextId == old(users.nextId) + 1
    ensures !MissingRequired(body) && !fault && !EmailTaken(old(users.rows), Fields(body).email) ==>
      old(users.nextId) !in old(users.rows)
      && res == Response(201, UserJson(UserOf(old(users.nextId), Fields(body))))
      && users.rows == old(users.rows)[old(users.nextId) := Fields(body)]
      && |users.rows| == |old(users.rows)| + 1
      && users.nextId == old(users.nextId) + 1
  {
    if MissingRequired(body) {
      return Response(400, ErrorJson(RequiredFieldsMsg));
    }
    var result := users.Insert(Fields(body), fault);
    match result
    case Rows(rows) =>
      res := Response(201, UserJson(rows[0]));
    case DbError(code) =>
      if code == UniqueViolation {
        res := Response(400, ErrorJson(EmailExistsMsg));
      } else {
        res := ServerError();
      }
  }

  /**
   * `PUT /api/users/:id`. Its catch has no `23505` branch: an email that
   * belongs to another row is answered with 500, not 400.
   */
  method UpdateUser(users: UsersTable, id: int, body: UserInput, fault: bool) returns (res: Response)
    requires users.Valid()
    modifies users
    ensures users.Valid() && users.nextId == old(users.nextId)
    ensures MissingRequired(body) ==>
      res == Response(400, ErrorJson(RequiredFieldsMsg)) && users.rows == old(users.rows)
    ensures !MissingRequired(body) && fault ==>
      res == ServerError() && users.rows == old(users.rows)
    ensures !MissingRequired(body) && !fault && id !in old(users.rows) ==>
      res == Response(404, ErrorJson(NotFoundMsg)) && users.rows == old(users.rows)
    ensures (!MissingRequired(body) && !fault && id in old(users.rows)
             && EmailTakenByOther(old(users.rows), Fields(body).email, id)) ==>
      res == ServerError() && users.rows == old(users.rows)
    ensures (!MissingRequired(body) && !fault && id in old(users.rows)
             && !EmailTakenByOther(old(users.rows), Fields(body).email, id)) ==>
      res == Response(200, UserJson(UserOf(id, Fields(body))))
      && users.rows == old(users.rows)[id := Fields(body)]
  {
    if MissingRequired(body) {
      return Response(400, ErrorJson(RequiredFieldsMsg));
    }
    var result := users.Update(id, Fields(body), fault);
    match result
    case Rows(rows) =>
      if |rows| == 0 {
        return Response(404, ErrorJson(NotFoundMsg));
      }
      res := Response(200, UserJson(rows[0]));
    case DbError(_) =>
      res := ServerError();
  }

  /** `DELETE /api/users/:id`. */
  method DeleteUser(users: UsersTable, id: int, fault: bool) returns (res: Response)
    requires users.Valid()
    modifies users
    ensures users.Valid() && users.nextId == old(users.nextId)
    ensures fault ==> res == ServerError() && users.rows == old(users.rows)
    ensures !fault && id !in old(users.rows) ==>
      res == Response(404, ErrorJson(NotFoundMsg)) && users.rows == old(users.rows)
    ensures !fault && id in old(users.rows) ==>
      res == Response(200, MessageJson(DeletedMsg))
      && users.rows == old(users.rows) - {id}
      && |users.rows| == |old(users.rows)| - 1
  {
    var result := users.Delete(id, fault);
    match result
    case Rows(rows) =>
      if |rows| == 0 {
        return Response(404, ErrorJson(NotFoundMsg));
      }
      res := Response(200, MessageJson(DeletedMsg));
    case DbError(_) =>
      res := ServerError();
  }

  /** A created user reads back with the fields it was created with. */
  method CreateThenGet(users: UsersTable, body: UserInput) returns (created: Response, fetched: Response)
    requires users.Valid()
    requires !MissingRequired(body) && !EmailTaken(users.rows, Fields(body).email)
    modifies users
    ensures created.status == 201 && created.body.UserJson?
    ensures fetched == Response(200, created.body)
    ensures fetched.body.user == UserOf(fetched.body.user.id, Fields(body))
  {
    created := CreateUser(users, body, false);
    fetched := GetUserById(users, created.body.user.id, false);
  }

  /** A second create with the same email is refused and adds no row. */
  method CreateTwice(users: UsersTable, body: UserInput) returns (first: Response, second: Response)
    requires users.Valid()
    requires !MissingRequired(body) && !EmailTaken(users.rows, Fields(body).email)
    modifies users
    ensures first.status == 201
    ensures second == Response(400, ErrorJson(EmailExistsMsg))
    ensures |users.rows| == |old(users.rows)| + 1
  {
    first := CreateUser(users, body, false);
    var id := first.body.user.id;
    assert users.rows[id].email == Fields(body).email;
    second := CreateUser(users, body, false);
  }

  /** A deleted user is no longer found. */
  method DeleteThenGet(users: UsersTable, id: int) returns (deleted: Response, fetched: Response)
    requires users.Valid() && id in users.rows
    modifies users
    ensures deleted == Response(200, MessageJson(DeletedMsg))
    ensures fetched == Response(404, ErrorJson(NotFoundMsg))
  {
    deleted := DeleteUser(users, id, false);
    fetched := GetUserById(users, id, false);
  }
}
